=== FILE: README.md ===
# Pan-Asia worker portal: the worker table, modelled in Dafny

The portal keeps a table of migrant-worker records (`User`, from `src/types.ts`)
and a signed-in user. A handful of handlers in `src/App.tsx` change them:

- login, with a hard-coded administrator sentinel and a monthly login bonus;
- confirming that a promotion was read, which awards a point once;
- editing the blood type;
- adding a medical record.

The dashboard also works out the next statutory medical checkup from the entry
date: 6, 18 and 30 months after entry for workers who came from abroad, and
yearly (12 to 108 months) for domestic transfers. It counts the days until that
checkup. The administrator view filters the directory and adds up the reward
points.

This project models that bookkeeping and proves what each handler does to the
table.

Modules, one file each:

- `wrappers.dfy`: `Option`.
- `js_string.dfy`: `trim`, `toUpperCase`, `toLowerCase` and `includes`.
- `calendar.dfy`: civil dates, and month addition with JavaScript's `setMonth`
  roll-over. Jan 31 plus one month is Mar 2 in a leap year and Mar 3 otherwise.
  Also the day numbers behind day differences.
- `iso_date.dfy`: `new Date(s)` for the ISO date-only forms of `s`, and
  `toISOString().split('T')[0]`.
  The invalid date (time value NaN) is `InvalidDate`.
- `workers.dfy`: the record shapes and the record-level updates, plus the
  `workers.map(...)` replacement by passport number.
- `auth.dfy`: the login decision and the `findIndex` search.
- `medical_schedule.dfy`: `getDaysDiff` and `calculateNextMedical`. The latter
  is a method with the source's `for` and `while` loops, proved against the
  function `NextCheckup`.
- `admin_directory.dfy`: the directory filter and the points total.
- `session.dfy`: the class `WorkerTable`. Its fields are `workers` and `user`,
  the two pieces of component state the handlers replace. Its methods are the
  handlers.

Conventions:

- The host clock is a parameter: `today` is a `Date` and `currentMonth` is the
  `YYYY-MM` string. The record id `Date.now().toString()` is a parameter too.
- Days are whole calendar days in one time zone: parsed dates and "today" are
  read in the same zone (see "Time zones" under "## Left out").
- `None` from `DaysDiff` stands for NaN.

## Model

| member | source | states |
|---|---|---|
| JsString.Trim | src/App.tsx:104-105 | The trimmed text has no white space at either end. |
| JsString.TrimPadded | src/App.tsx:104-105 | Trimming white space around a core that starts and ends with a non-space gives exactly that core. |
| JsString.TrimIdempotent | src/App.tsx:104-105 | Trimming twice is trimming once. |
| JsString.UpperTrimCommute | src/App.tsx:104-108 | Upper-casing and trimming commute, so `cleanId.toUpperCase()` depends only on the upper-cased input. |
| JsString.Upper | src/App.tsx:132 | Same length. Each ASCII lower-case letter becomes its capital, so none is left, and every other character is kept. |
| JsString.Lower | src/App.tsx:352-353 | Same length. Each ASCII capital becomes its small letter, so none is left, and every other character is kept. |
| JsString.Includes | src/App.tsx:352-353 | `includes` is true exactly when the needle occurs at some position. |
| JsString.IncludesEmpty | src/App.tsx:352-353 | The empty search term occurs in every string. |
| Calendar.DaysInMonth | src/App.tsx:229 | Month lengths are 28..31, and 29 exactly for February of a leap year. |
| Calendar.MakeDate | src/App.tsx:229 | The date is valid. A day that fits the month is kept; otherwise the surplus days spill into the following month. |
| Calendar.AddMonths | src/App.tsx:228-229 | Adding months to a valid date gives a valid date. |
| Calendar.AddMonthsIncreasing | src/App.tsx:227-238 | More months added give a strictly later date, roll-over included. |
| Calendar.AddMonthsNotBefore | src/App.tsx:227-238 | Adding at least as many months never gives an earlier date. |
| Calendar.AddMonthsExamples | src/App.tsx:229 | Concrete cases of `setMonth` overflow: Jan 31 + 1 month is Mar 2 (2024) or Mar 3 (2023), and Feb 29 + 12 months is Mar 1. |
| Calendar.MonthStartIncreasing | src/App.tsx:218 | A later month starts no earlier than the end of an earlier month, in day numbers. |
| Calendar.DayNumberOrder | src/App.tsx:218 | Day-number order agrees with calendar order, and equal day numbers mean the same date. |
| Calendar.NextDayNumber | src/App.tsx:218 | The next calendar day has the next day number and is later. |
| IsoDate.ShiftMonths | src/App.tsx:228-229 | An invalid date stays invalid; a valid one moves by `AddMonths`. |
| IsoDate.DigitsRoundTrip | src/App.tsx:230 | A number below 10^w prints as exactly w digits that read back as the number. |
| IsoDate.Format | src/App.tsx:230 | `YYYY-MM-DD`: 10 characters for years 0..9999, 13 (signed six-digit year) for the other years up to ±999999. Dashes sit before the two-digit month and day. |
| IsoDate.FromFields | src/App.tsx:215 | Month 1..12 and day 1..31 give a valid date; the day is kept when it fits the month. Any other field values give the invalid date. |
| IsoDate.ParseDate | src/App.tsx:215 | Any date it gives is valid, and only texts of 4, 7, 10 or 13 characters give one. |
| IsoDate.ParseDateOnlyForms | src/App.tsx:215 | Only a date-only text gives a date: `YYYY` or `±YYYYYY`, optionally followed by `-MM` and then `-DD`, all fields digits. |
| IsoDate.ParseYearOnly | src/App.tsx:223 | `YYYY` is read as that year with month and day 1. |
| IsoDate.ParseYearMonth | src/App.tsx:223 | `YYYY-MM` is read as that year and month with day 1. |
| IsoDate.ParseFullDate | src/App.tsx:223 | `YYYY-MM-DD` is read field by field. |
| IsoDate.ParseLongYearOnly | src/App.tsx:215 | `±YYYYYY` is read as the signed year with month and day 1. |
| IsoDate.ParseLongYearMonth | src/App.tsx:215 | `±YYYYYY-MM` is read as the signed year and month with day 1. |
| IsoDate.ParseLongFullDate | src/App.tsx:215 | `±YYYYYY-MM-DD` is read field by field, the sign giving the year's sign. |
| IsoDate.NegativeZeroYear | src/App.tsx:215 | The year `-000000` is the invalid date. |
| IsoDate.YearOnlyExample | src/App.tsx:215 | `2024` is Jan 1 2024. |
| IsoDate.YearMonthExamples | src/App.tsx:215 | `2024-03` is Mar 1 2024, and `2024-13` is the invalid date. |
| IsoDate.NotDateExamples | src/App.tsx:215 | A two-digit year and the empty text are the invalid date. |
| IsoDate.FormatParseRoundTrip | src/App.tsx:230 | Parsing the printed date gives the date back (years −999999..999999). |
| IsoDate.FieldExamples | src/App.tsx:215 | Feb 30 rolls over to Mar 1 or 2; month 13 and day 32 are invalid. |
| Workers.ApplyLoginBonus | src/App.tsx:136-147 | The month is recorded. Points rise by one exactly when the stored month differs (absent counts as different). Otherwise the record is unchanged, and no other field ever changes. |
| Workers.LoginBonusOncePerMonth | src/App.tsx:139 | A second bonus in the same month changes nothing. |
| Workers.ConfirmRead | src/App.tsx:167-173 | The id is then read. An id already read leaves the record unchanged. A new id is appended and adds one point. Nothing else changes. |
| Workers.ConfirmReadIdempotent | src/App.tsx:169-170 | Confirming twice equals confirming once. |
| Workers.ConfirmReadMonotone | src/App.tsx:169-172 | Read ids are kept and points never fall. |
| Workers.WithBloodType | src/App.tsx:185 | Only the blood type changes. |
| Workers.AddRecord | src/App.tsx:195-203 | The history becomes `[record] + old history` (absent = empty); nothing else changes. |
| Workers.AddRecordNewestFirst | src/App.tsx:203 | The history grows by one, the new record is first, older records keep their order, and points are untouched. |
| Workers.ReplaceByPassport | src/App.tsx:174 | Same length. Every record with the passport becomes the updated one; every other record is unchanged. |
| Workers.ReplaceUniqueIsUpdate | src/App.tsx:174 | With unique passports, the map replaces exactly the one slot holding that passport. |
| Workers.ReplaceKeepsMember | src/App.tsx:174-176 | The updated record is in the new table when the signed-in record was in the old one. |
| Workers.ReplaceKeepsPassports | src/App.tsx:204 | Replacing with a record that keeps the passport keeps every passport in place. |
| Auth.AdminUser | src/App.tsx:109-123 | The synthetic administrator has role admin. |
| Auth.FirstMatchFrom | src/App.tsx:132 | The index is the first record from `from` on whose upper-cased passport and exact birth date match, or the table length. |
| Auth.Authenticate | src/App.tsx:104-134 | Admin exactly for the sentinel credentials. Otherwise the first matching record, with no earlier match. Otherwise failure exactly when no record matches. |
| Auth.AdminIgnoresTable | src/App.tsx:108-129 | The sentinel logs in as admin whatever the table holds, the empty table included. |
| Auth.AdminSentinelPadded | src/App.tsx:104-108 | Surrounding white space and any letter case of `ALAN` still give admin. |
| Auth.FirstMatchSameCredentials | src/App.tsx:132 | Tables that agree on passports and birth dates give the same first match. |
| Auth.AuthenticateIgnoresIdCase | src/App.tsx:132 | Identifiers with the same upper-case form log in the same way. |
| Auth.FindIndex | src/App.tsx:132 | `findIndex` returns the first matching index, or −1 exactly when none matches. |
| MedicalSchedule.DaysDiff | src/App.tsx:213-219 | The empty text is 0 days away; a non-empty text is NaN exactly when it does not parse. The lemmas below give the count itself. |
| MedicalSchedule.DaysDiffOfToday | src/App.tsx:213-219 | Today's own printed date is 0 days away. |
| MedicalSchedule.DaysDiffNextDay | src/App.tsx:213-219 | When a day passes, every non-empty date comes one day closer; NaN stays NaN. |
| MedicalSchedule.DaysDiffSign | src/App.tsx:213-219 | The count is ≥ 0 exactly when the date is not past, and 0 exactly on the day. |
| MedicalSchedule.DomesticOffsets | src/App.tsx:234-240 | The loop visits the nine offsets 12·k (k = 1..9), all below 120; the next would not be. |
| MedicalSchedule.FirstDueFrom | src/App.tsx:227-240 | The index is the first offset from `from` on whose date is not before today; every earlier one is past. |
| MedicalSchedule.NextCheckup | src/App.tsx:221-243 | An empty entry date gives none. A result is always valid and never before today. |
| MedicalSchedule.AbroadSchedule | src/App.tsx:226-232 | Abroad: the first of entry + 6, + 18 and + 30 months not before today, in that order, or none. |
| MedicalSchedule.DomesticSchedule | src/App.tsx:233-242 | Domestic: an anniversary 1..9 years on, the earliest not before today. None exactly when all nine have passed. |
| MedicalSchedule.NextCheckupOnSchedule | src/App.tsx:221-243 | A result is the parsed entry date plus one of the scheduled month offsets. |
| MedicalSchedule.NextMedical | src/App.tsx:221-243 | The loops return the ISO text of `NextCheckup`, or null when it is none. |
| MedicalSchedule.NextCheckupDaysAhead | src/App.tsx:440-441 | The dashboard's day count to the next checkup is a number ≥ 0. |
| AdminDirectory.MatchesSearch | src/App.tsx:352-353 | A worker matches exactly when the lower-cased term occurs in the lower-cased name or passport number; the empty term matches every worker, and a match needs a name or passport number at least as long as the term. |
| AdminDirectory.SearchIgnoresCase | src/App.tsx:352-353 | Upper- or lower-casing the search term does not change which workers match. |
| AdminDirectory.MatchesEmployer | src/App.tsx:354 | `all` matches every worker; any other filter matches exactly the workers of that employer. |
| AdminDirectory.FilterWorkers | src/App.tsx:351-356 | An order-preserving subsequence. Every kept worker matches the search (case-insensitive, name or passport) and the employer filter. Every matching record is kept as often as it occurs in the table. |
| AdminDirectory.FilterEverything | src/App.tsx:351-356 | An empty search with filter `all` shows the whole table. |
| AdminDirectory.TotalPoints | src/App.tsx:376 | The total of `points or 0` is non-negative when every worker's points are. |
| AdminDirectory.TotalPointsUpdate | src/App.tsx:376 | Replacing one record changes the total by that record's change in points. |
| Session.WorkerTable.constructor | src/App.tsx:38-39 | The table starts as given and nobody is signed in. |
| Session.WorkerTable.Login | src/App.tsx:102-157 | Sentinel: admin session, table unchanged. No match: rejected, table and user unchanged. Match at i: only slot i changes, by the login bonus. That record becomes the user, and the outcome reports whether a point was awarded. |
| Session.WorkerTable.SignIn | src/App.tsx:135-151 | The bonus is written back to slot i only. The updated record becomes the user, and the awarded flag is whether the bonus was due. |
| Session.WorkerTable.Logout | src/App.tsx:159-165 | Nobody is signed in; the table is unchanged. |
| Session.WorkerTable.ConfirmPromotion | src/App.tsx:167-181 | A point is awarded exactly when someone is signed in and the id is unread. The user then becomes `ConfirmRead(user, id)`, and records with that passport become it. Otherwise nothing changes. When a signed-in worker is awarded and passports are unique, the points total rises by exactly one. |
| Session.WorkerTable.UpdateBloodType | src/App.tsx:183-192 | No user: no-op. Otherwise the user gets the new blood type, and so do the records with that passport. For a signed-in worker and unique passports, the points total is unchanged. |
| Session.WorkerTable.AddMedicalRecord | src/App.tsx:194-211 | No user: no-op. Otherwise the record is put first in the user's history, and the records with that passport are replaced by the updated user. For a signed-in worker and unique passports, the points total is unchanged. |
| Session.SecondLoginSameMonth | src/App.tsx:132-147 | After a worker login, logging in again in the same month finds the same record, awards nothing and leaves the table as it was. |
| Session.LoginBonusTotal | src/App.tsx:139-143 | A login raises the points total by one when the bonus is due, else by nothing. |
| Session.ConfirmationTotal | src/App.tsx:172-174 | With unique passports, confirming an unread promotion lowers nobody's points and raises the total by exactly one. |
| Session.EditTotal | src/App.tsx:184-204 | With unique passports, the blood-type and medical-record edits leave the points total unchanged. |

## Left out

- JSX views, navigation, toasts and the offline banner: this is rendering.
- `localStorage` reads and writes, `JSON.parse`, and restoring a cached user at
  start-up. This is I/O. The start-up state is the given table with nobody
  signed in. A cached user that is not in the table would break the
  `WorkerTable.Valid` invariant, so that restore is not modelled.
- `online`/`offline` listeners and `setTimeout` timing: these are host events.
- `handleSendMessage` and the LLM client in `src/services/geminiService.ts`: an
  external network call.
- Clock reads (`new Date()`, `Date.now()`): they are parameters (`today`,
  `currentMonth`, the record id).
- Time zones: `new Date("YYYY-MM-DD")` is UTC midnight while
  `now.setHours(0, 0, 0, 0)` is local midnight. The model counts whole days in
  one zone, so `Math.ceil` over milliseconds becomes a difference of day numbers.
  This loses the offset between the two midnights. East of UTC, `Math.ceil`
  rounds the extra hours up, so `getDaysDiff` is one more than `DaysDiff`: today's
  own date gives 1 in the program where `DaysDiffOfToday` gives 0. West of UTC,
  the parsed date is the evening of the previous local day, so `setMonth` and
  `mDate >= now` work on that day: a checkup due today counts as past, and the
  printed checkup date can differ by a day from the model's.
- The `Date` time-value range (±8.64e15 ms, about ±275760 years) and
  `toISOString`'s exception outside it are not modelled. The round trip is
  proved for years −999999..999999.
- Date strings other than the ISO date-only forms (`YYYY`, `YYYY-MM`,
  `YYYY-MM-DD` and their `±YYYYYY` variants) become the invalid date. The
  date-time forms and the engine-specific fallback formats of `Date.parse` are
  not modelled.
- IsoDate.FromFields: follows V8 in rolling an out-of-range day (1..31) into
  the next month, so `2023-02-30` is Mar 2. ECMAScript leaves such strings to
  the engine, and other engines may give the invalid date.
- `toUpperCase`/`toLowerCase` map ASCII letters only, because the model has no
  Unicode case tables.
- MedicalSchedule.DomesticOffsets: the loop `while (months < 120)`
  (src/App.tsx:235) stops after 108 months. That is nine anniversaries, 12 to
  108 months.
- Session.ConfirmationTotal: holds only for tables with unique passport numbers.
  The handlers replace every record that shares the signed-in passport, and
  the source does not enforce uniqueness.
- Session.EditTotal: needs unique passport numbers, for the same reason.

=== FILE: admin_directory.dfy ===
/** The administrator's worker directory: the search/employer filter and the
    total of reward points over all workers. */
module AdminDirectory {
  import opened JsString
  import opened Workers

  /** The search term occurs, ignoring letter case, in the name or the passport number. */
  function MatchesSearch(w: User, term: string): (r: bool)
    ensures r <==>
      (exists i :: OccursAt(Lower(w.name), Lower(term), i))
      || (exists i :: OccursAt(Lower(w.passportNumber), Lower(term), i))
    ensures term == "" ==> r
    ensures r ==> |term| <= |w.name| || |term| <= |w.passportNumber|
  {
    IncludesEmpty(Lower(w.name));
    Includes(Lower(w.name), Lower(term)) || Includes(Lower(w.passportNumber), Lower(term))
  }

  /** Searching is blind to the letter case of the term. */
  lemma SearchIgnoresCase(w: User, term: string)
    ensures MatchesSearch(w, Upper(term)) == MatchesSearch(w, term)
    ensures MatchesSearch(w, Lower(term)) == MatchesSearch(w, term)
  {
    assert Lower(Upper(term)) == Lower(term);
    assert Lower(Lower(term)) == Lower(term);
  }

  /** The employer filter is `'all'` or names the worker's employer. */
  function MatchesEmployer(w: User, employerFilter: string): (r: bool)
    ensures employerFilter == "all" ==> r
    ensures r && employerFilter != "all" ==> w.employer == employerFilter
    ensures w.employer == employerFilter ==> r
  {
    employerFilter == "all" || w.employer == employerFilter
  }

  predicate Shown(w: User, term: string, employerFilter: string) {
    MatchesSearch(w, term) && MatchesEmployer(w, employerFilter)
  }

  /** `a` is `b` with some elements left out, the rest in their order. */
  predicate IsSubsequence(a: seq<User>, b: seq<User>) {
    if a == [] then true
    else if b == [] then false
    else (a[0] == b[0] && IsSubsequence(a[1..], b[1..])) || IsSubsequence(a, b[1..])
  }

  /** `workers.filter(...)` of the directory view. */
  function FilterWorkers(ws: seq<User>, term: string, employerFilter: string): (r: seq<User>)
    ensures IsSubsequence(r, ws)
    ensures forall w :: w in r ==> Shown(w, term, employerFilter)
    ensures forall w :: w in ws && Shown(w, term, employerFilter) ==> w in r
    ensures forall w :: Shown(w, term, employerFilter) ==> multiset(r)[w] == multiset(ws)[w]
  {
    if ws == [] then []
    else
      var rest := FilterWorkers(ws[1..], term, employerFilter);
      assert ws == [ws[0]] + ws[1..];
      assert forall w :: w in ws ==> w == ws[0] || w in ws[1..];
      if Shown(ws[0], term, employerFilter) then [ws[0]] + rest else rest
  }

  /** An empty search with the `'all'` filter shows the whole table. */
  lemma {:induction false} FilterEverything(ws: seq<User>)
    ensures FilterWorkers(ws, "", "all") == ws
  {
    if ws != [] {
      IncludesEmpty(Lower(ws[0].name));
      assert Lower("") == "";
      FilterEverything(ws[1..]);
    }
  }

  /** `workers.reduce((acc, w) => acc + (w.points || 0), 0)`, folded from the left. */
  function TotalPoints(ws: seq<User>): (total: int)
    ensures (forall i :: 0 <= i < |ws| ==> PointsOf(ws[i]) >= 0) ==> total >= 0
  {
    if ws == [] then 0 else TotalPoints(ws[..|ws| - 1]) + PointsOf(ws[|ws| - 1])
  }

  /** Replacing one record changes the total by the change in that record's points. */
  lemma {:induction false} TotalPointsUpdate(ws: seq<User>, i: nat, u: User)
    requires i < |ws|
    ensures TotalPoints(ws[i := u]) == TotalPoints(ws) - PointsOf(ws[i]) + PointsOf(u)
  {
    var n := |ws| - 1;
    if i < n {
      assert ws[i := u][..n] == ws[..n][i := u];
      TotalPointsUpdate(ws[..n], i, u);
    } else {
      assert ws[i := u][..n] == ws[..n];
    }
  }
}

=== FILE: auth.dfy ===
/** The login gate of `handleLogin`: the administrator sentinel and the lookup of
    a worker by passport number (any letter case) and birth-date secret. */
module Auth {
  import opened Wrappers
  import opened JsString
  import opened Workers

  const AdminId: string := "ALAN"
  const AdminSecret: string := "ICH"

  /** The synthetic administrator identity; it is not taken from the worker table. */
  function AdminUser(): (u: User)
    ensures u.role == Some(Admin)
  {
    User(
      passportNumber := "ALAN",
      birthDate := "ICH",
      name := "ADMIN: ALAN",
      employer := "pan_asia",
      workerId := "ADMIN-01",
      bloodType := "N/A",
      allergies := [],
      passportExpiry := "9999-12-31",
      medicalCheckupDate := "9999-12-31",
      entryDate := "9999-12-31",
      entryType := Abroad,
      dormitory := None,
      roomNumber := None,
      medicalHistory := None,
      readPromotions := None,
      points := None,
      lastLoginMonth := None,
      emergencyContact := EmergencyContact("Support", "HQ", "0800"),
      role := Some(Admin))
  }

  /** The trimmed identifier, upper-cased, is the sentinel and the trimmed secret is exactly its secret. */
  predicate IsAdminCredentials(idInput: string, secretInput: string) {
    Upper(Trim(idInput)) == AdminId && Trim(secretInput) == AdminSecret
  }

  /** The record's passport, upper-cased, is `key` and its birth date is exactly `secret`. */
  predicate CredentialsMatch(u: User, key: string, secret: string) {
    Upper(u.passportNumber) == key && u.birthDate == secret
  }

  /** Index of the first record from `from` on that matches (`|ws|` when none does). */
  function FirstMatchFrom(ws: seq<User>, key: string, secret: string, from: nat): (k: nat)
    requires from <= |ws|
    ensures from <= k <= |ws|
    ensures forall j :: from <= j < k ==> !CredentialsMatch(ws[j], key, secret)
    ensures k < |ws| ==> CredentialsMatch(ws[k], key, secret)
    decreases |ws| - from
  {
    if from == |ws| then from
    else if CredentialsMatch(ws[from], key, secret) then from
    else FirstMatchFrom(ws, key, secret, from + 1)
  }

  /** No record matches exactly when the search runs off the end of the table. */
  lemma FirstMatchNone(ws: seq<User>, key: string, secret: string)
    ensures FirstMatchFrom(ws, key, secret, 0) == |ws|
      <==> forall j :: 0 <= j < |ws| ==> !CredentialsMatch(ws[j], key, secret)
  {
  }

  datatype AuthResult = AdminAuth | WorkerAuth(index: nat) | AuthFailure

  /** Who the two inputs log in as, against the worker table `ws`. */
  function Authenticate(ws: seq<User>, idInput: string, secretInput: string): (r: AuthResult)
    ensures r.AdminAuth? <==> IsAdminCredentials(idInput, secretInput)
    ensures r.WorkerAuth? ==> (r.index < |ws|
      && CredentialsMatch(ws[r.index], Upper(Trim(idInput)), Trim(secretInput))
      && forall j :: 0 <= j < r.index ==> !CredentialsMatch(ws[j], Upper(Trim(idInput)), Trim(secretInput)))
    ensures r.AuthFailure? <==> (!IsAdminCredentials(idInput, secretInput)
      && forall j :: 0 <= j < |ws| ==> !CredentialsMatch(ws[j], Upper(Trim(idInput)), Trim(secretInput)))
  {
    if IsAdminCredentials(idInput, secretInput) then AdminAuth
    else
      var key, secret := Upper(Trim(idInput)), Trim(secretInput);
      var k := FirstMatchFrom(ws, key, secret, 0);
      FirstMatchNone(ws, key, secret);
      if k < |ws| then WorkerAuth(k) else AuthFailure
  }

  /** The sentinel logs in as administrator whatever the table holds, the empty table included. */
  lemma AdminIgnoresTable(ws: seq<User>, idInput: string, secretInput: string)
    requires IsAdminCredentials(idInput, secretInput)
    ensures Authenticate(ws, idInput, secretInput) == AdminAuth
    ensures Authenticate([], idInput, secretInput) == AdminAuth
  {
  }

  /** Surrounding white space and the letter case of the identifier do not matter to the sentinel. */
  lemma AdminSentinelPadded(ws: seq<User>, id: string, pre1: string, post1: string,
                            pre2: string, post2: string)
    requires Upper(id) == AdminId
    requires AllTrimmable(pre1) && AllTrimmable(post1) && AllTrimmable(pre2) && AllTrimmable(post2)
    ensures Authenticate(ws, pre1 + id + post1, pre2 + AdminSecret + post2) == AdminAuth
  {
    AdminIdUnpadded(id);
    TrimPadded(pre1, id, post1);
    assert AdminSecret[0] == 'I' && AdminSecret[2] == 'H' && !IsTrimmable('I') && !IsTrimmable('H');
    TrimPadded(pre2, AdminSecret, post2);
    assert IsAdminCredentials(pre1 + id + post1, pre2 + AdminSecret + post2);
  }

  /** Any spelling of the sentinel identifier starts and ends with a letter. */
  lemma AdminIdUnpadded(id: string)
    requires Upper(id) == AdminId
    ensures Unpadded(id)
  {
    assert |id| == 4 && AdminId[0] == 'A' && AdminId[3] == 'N';
    assert Upper(id)[0] == UpperChar(id[0]) && Upper(id)[3] == UpperChar(id[3]);
    UpperCharTrimmable(id[0]);
    UpperCharTrimmable(id[3]);
  }

  /** Records that agree on passport numbers and birth dates give the same first match. */
  lemma {:induction false} FirstMatchSameCredentials(ws1: seq<User>, ws2: seq<User>, key: string,
                                                     secret: string, from: nat)
    requires |ws1| == |ws2| && from <= |ws1|
    requires forall j :: 0 <= j < |ws1| ==>
      ws1[j].passportNumber == ws2[j].passportNumber && ws1[j].birthDate == ws2[j].birthDate
    ensures FirstMatchFrom(ws1, key, secret, from) == FirstMatchFrom(ws2, key, secret, from)
    decreases |ws1| - from
  {
    if from < |ws1| {
      FirstMatchSameCredentials(ws1, ws2, key, secret, from + 1);
    }
  }

  /** Tables with the same first match for the cleaned inputs give the same login decision. */
  lemma AuthenticateByFirstMatch(ws1: seq<User>, ws2: seq<User>, idInput: string, secretInput: string)
    requires |ws1| == |ws2|
    requires FirstMatchFrom(ws1, Upper(Trim(idInput)), Trim(secretInput), 0)
      == FirstMatchFrom(ws2, Upper(Trim(idInput)), Trim(secretInput), 0)
    ensures Authenticate(ws1, idInput, secretInput) == Authenticate(ws2, idInput, secretInput)
  {
    var key, secret := Upper(Trim(idInput)), Trim(secretInput);
    var k := FirstMatchFrom(ws1, key, secret, 0);
    if IsAdminCredentials(idInput, secretInput) {
      assert Authenticate(ws1, idInput, secretInput) == AdminAuth == Authenticate(ws2, idInput, secretInput);
    } else if k < |ws1| {
      assert Authenticate(ws1, idInput, secretInput) == WorkerAuth(k) == Authenticate(ws2, idInput, secretInput);
    } else {
      assert Authenticate(ws1, idInput, secretInput) == AuthFailure == Authenticate(ws2, idInput, secretInput);
    }
  }

  /** The first-match index is the `findIndex` result, with `|ws|` standing for -1. */
  lemma FirstMatchIs(ws: seq<User>, key: string, secret: string, idx: int)
    requires -1 <= idx < |ws|
    requires idx == -1 <==> forall j :: 0 <= j < |ws| ==> !CredentialsMatch(ws[j], key, secret)
    requires idx >= 0 ==> CredentialsMatch(ws[idx], key, secret)
    requires idx >= 0 ==> forall j :: 0 <= j < idx ==> !CredentialsMatch(ws[j], key, secret)
    ensures FirstMatchFrom(ws, key, secret, 0) == if idx == -1 then |ws| else idx
  {
  }

  /** A `findIndex` result over the cleaned inputs decides the login for non-sentinel credentials. */
  lemma AuthenticateFromIndex(ws: seq<User>, idInput: string, secretInput: string, idx: int)
    requires !IsAdminCredentials(idInput, secretInput)
    requires -1 <= idx < |ws|
    requires idx == -1 <==> forall j :: 0 <= j < |ws| ==> !CredentialsMatch(ws[j], Upper(Trim(idInput)), Trim(secretInput))
    requires idx >= 0 ==> CredentialsMatch(ws[idx], Upper(Trim(idInput)), Trim(secretInput))
    requires idx >= 0 ==> forall j :: 0 <= j < idx ==> !CredentialsMatch(ws[j], Upper(Trim(idInput)), Trim(secretInput))
    ensures idx == -1 ==> Authenticate(ws, idInput, secretInput) == AuthFailure
    ensures idx >= 0 ==> Authenticate(ws, idInput, secretInput) == WorkerAuth(idx)
  {
    FirstMatchIs(ws, Upper(Trim(idInput)), Trim(secretInput), idx);
  }

  /** The login decision depends on the identifier only through its upper-cased form. */
  lemma AuthenticateIgnoresIdCase(ws: seq<User>, id1: string, id2: string, secretInput: string)
    requires Upper(id1) == Upper(id2)
    ensures Authenticate(ws, id1, secretInput) == Authenticate(ws, id2, secretInput)
  {
    UpperTrimCommute(id1);
    UpperTrimCommute(id2);
    var key := Upper(Trim(id1));
    assert key == Upper(Trim(id2));
    var k := FirstMatchFrom(ws, key, Trim(secretInput), 0);
    if IsAdminCredentials(id1, secretInput) {
      assert Authenticate(ws, id1, secretInput) == AdminAuth == Authenticate(ws, id2, secretInput);
    } else if k < |ws| {
      assert Authenticate(ws, id1, secretInput) == WorkerAuth(k) == Authenticate(ws, id2, secretInput);
    } else {
      assert Authenticate(ws, id1, secretInput) == AuthFailure == Authenticate(ws, id2, secretInput);
    }
  }

  /** `workers.findIndex(u => ...)`: the first matching index, or -1. */
  method FindIndex(ws: seq<User>, cleanId: string, cleanPwd: string) returns (idx: int)
    ensures -1 <= idx < |ws|
    ensures idx == -1 <==> forall j :: 0 <= j < |ws| ==> !CredentialsMatch(ws[j], Upper(cleanId), cleanPwd)
    ensures idx >= 0 ==> CredentialsMatch(ws[idx], Upper(cleanId), cleanPwd)
    ensures idx >= 0 ==> forall j :: 0 <= j < idx ==> !CredentialsMatch(ws[j], Upper(cleanId), cleanPwd)
  {
    var i := 0;
    while i < |ws|
      invariant 0 <= i <= |ws|
      invariant forall j :: 0 <= j < i ==> !CredentialsMatch(ws[j], Upper(cleanId), cleanPwd)
    {
      if Upper(ws[i].passportNumber) == Upper(cleanId) && ws[i].birthDate == cleanPwd {
        return i;
      }
      i := i + 1;
    }
    return -1;
  }
}

=== FILE: calendar.dfy ===
/** Proleptic Gregorian calendar dates at whole-day granularity, with the
    month arithmetic of JavaScript's `Date.prototype.setMonth`. */
module Calendar {

  /** A calendar date; `month` runs 1..12 and `day` 1..DaysInMonth. */
  datatype Date = Date(year: int, month: int, day: int)

  predicate IsLeapYear(y: int) {
    y % 4 == 0 && (y % 100 != 0 || y % 400 == 0)
  }

  function DaysInMonth(y: int, m: int): (n: int)
    requires 1 <= m <= 12
    ensures 28 <= n <= 31
    ensures n == 29 <==> m == 2 && IsLeapYear(y)
  {
    if m == 2 then (if IsLeapYear(y) then 29 else 28)
    else if m == 4 || m == 6 || m == 9 || m == 11 then 30
    else 31
  }

  predicate Valid(d: Date) {
    1 <= d.month <= 12 && 1 <= d.day <= DaysInMonth(d.year, d.month)
  }

  /** Months since January of year 0: the month count JavaScript's MakeDay works with. */
  function MonthIndex(d: Date): int {
    d.year * 12 + d.month - 1
  }

  /** Number of days in the month with index `mi`. */
  function MonthLength(mi: int): (n: int)
    ensures 28 <= n <= 31
  {
    DaysInMonth(mi / 12, mi % 12 + 1)
  }

  /** The date on day `day` (1..31) of month `mi`, as MakeDay computes it: a day
      past the end of that month rolls forward into the next month. */
  function MakeDate(mi: int, day: int): (d: Date)
    requires 1 <= day <= 31
    ensures Valid(d)
    ensures day <= MonthLength(mi) ==> MonthIndex(d) == mi && d.day == day
    ensures day > MonthLength(mi) ==> MonthIndex(d) == mi + 1 && d.day == day - MonthLength(mi)
  {
    var y, m := mi / 12, mi % 12 + 1;
    var n := DaysInMonth(y, m);
    if day <= n then Date(y, m, day)
    else if m < 12 then Date(y, m + 1, day - n)
    else Date(y + 1, 1, day - n)
  }

  /** A valid date is rebuilt unchanged from its month index and day. */
  lemma MakeDateOfValid(d: Date)
    requires Valid(d)
    ensures MakeDate(MonthIndex(d), d.day) == d
  {
    MonthIndexParts(d);
  }

  lemma MonthIndexParts(d: Date)
    requires 1 <= d.month <= 12
    ensures MonthIndex(d) / 12 == d.year && MonthIndex(d) % 12 + 1 == d.month
  {
  }

  /** `date.setMonth(date.getMonth() + n)`: same day of the month `n` months on,
      rolled forward into the following month when that month is too short. */
  function AddMonths(d: Date, n: int): (r: Date)
    requires Valid(d)
    ensures Valid(r)
  {
    MakeDate(MonthIndex(d) + n, d.day)
  }

  /** Strict chronological order. */
  predicate Before(a: Date, b: Date) {
    MonthIndex(a) < MonthIndex(b) || (MonthIndex(a) == MonthIndex(b) && a.day < b.day)
  }

  /** More months added give a strictly later date, roll-over included. */
  lemma AddMonthsIncreasing(d: Date, n1: int, n2: int)
    requires Valid(d) && n1 < n2
    ensures Before(AddMonths(d, n1), AddMonths(d, n2))
  {
  }

  /** Adding at least as many months never gives an earlier date. */
  lemma AddMonthsNotBefore(d: Date, n1: int, n2: int)
    requires Valid(d) && n1 <= n2
    ensures !Before(AddMonths(d, n2), AddMonths(d, n1))
  {
    if n1 < n2 {
      AddMonthsIncreasing(d, n1, n2);
    }
  }

  /** Overflow examples: the day is kept when the target month is long enough,
      otherwise the surplus days spill into the month after. */
  lemma AddMonthsExamples()
    ensures AddMonths(Date(2024, 1, 15), 6) == Date(2024, 7, 15)
    ensures AddMonths(Date(2024, 1, 31), 1) == Date(2024, 3, 2)
    ensures AddMonths(Date(2023, 1, 31), 1) == Date(2023, 3, 3)
    ensures AddMonths(Date(2024, 8, 31), 18) == Date(2026, 3, 3)
    ensures AddMonths(Date(2024, 2, 29), 12) == Date(2025, 3, 1)
  {
    assert MakeDate(24294, 15) == Date(2024, 7, 15);
    assert MakeDate(24289, 31) == Date(2024, 3, 2);
    assert MakeDate(24277, 31) == Date(2023, 3, 3);
    assert MakeDate(24313, 31) == Date(2026, 3, 3);
    assert MakeDate(24301, 29) == Date(2025, 3, 1);
  }

  // ---- Day numbers (used for differences in days) ----

  /** Days from 1 January of year 0 to 1 January of year `y`. */
  function DaysBeforeYear(y: int): int {
    365 * y + (y + 3) / 4 - (y + 99) / 100 + (y + 399) / 400
  }

  function DaysBeforeMonth(y: int, m: int): int
    requires 1 <= m <= 12
  {
    [0, 31, 59, 90, 120, 151, 181, 212, 243, 273, 304, 334][m - 1]
      + (if m > 2 && IsLeapYear(y) then 1 else 0)
  }

  /** Days since 1 January of year 0 (negative before it). */
  function DayNumber(d: Date): int
    requires 1 <= d.month <= 12
  {
    DaysBeforeYear(d.year) + DaysBeforeMonth(d.year, d.month) + d.day - 1
  }

  /** Day number of the first day of month `mi`. */
  function MonthStart(mi: int): int {
    DayNumber(Date(mi / 12, mi % 12 + 1, 1))
  }

  lemma YearStep(y: int)
    ensures DaysBeforeYear(y + 1) == DaysBeforeYear(y) + (if IsLeapYear(y) then 366 else 365)
  {
    assert (y + 4) / 4 == (y + 3) / 4 + (if y % 4 == 0 then 1 else 0);
    assert (y + 100) / 100 == (y + 99) / 100 + (if y % 100 == 0 then 1 else 0);
    assert (y + 400) / 400 == (y + 399) / 400 + (if y % 400 == 0 then 1 else 0);
  }

  lemma MonthStep(mi: int)
    ensures MonthStart(mi + 1) == MonthStart(mi) + MonthLength(mi)
  {
    var y, m := mi / 12, mi % 12 + 1;
    if m < 12 {
      assert (mi + 1) / 12 == y && (mi + 1) % 12 + 1 == m + 1;
    } else {
      assert (mi + 1) / 12 == y + 1 && (mi + 1) % 12 + 1 == 1;
      YearStep(y);
    }
  }

  lemma {:induction false} MonthStartIncreasing(a: int, b: int)
    requires a < b
    ensures MonthStart(a) + MonthLength(a) <= MonthStart(b)
    decreases b - a
  {
    if a + 1 == b {
      MonthStep(a);
    } else {
      MonthStartIncreasing(a + 1, b);
      MonthStep(a);
    }
  }

  lemma DayNumberInMonth(d: Date)
    requires Valid(d)
    ensures DayNumber(d) == MonthStart(MonthIndex(d)) + d.day - 1
  {
    MonthIndexParts(d);
  }

  /** Chronological order and day-number order agree. */
  lemma DayNumberOrder(a: Date, b: Date)
    requires Valid(a) && Valid(b)
    ensures Before(a, b) <==> DayNumber(a) < DayNumber(b)
    ensures a == b <==> DayNumber(a) == DayNumber(b)
  {
    DayNumberInMonth(a);
    DayNumberInMonth(b);
    MonthIndexParts(a);
    MonthIndexParts(b);
    if MonthIndex(a) < MonthIndex(b) {
      MonthStartIncreasing(MonthIndex(a), MonthIndex(b));
    } else if MonthIndex(b) < MonthIndex(a) {
      MonthStartIncreasing(MonthIndex(b), MonthIndex(a));
    }
  }

  /** The calendar day after `d`. */
  function NextDay(d: Date): (r: Date)
    requires Valid(d)
    ensures Valid(r)
  {
    if d.day < DaysInMonth(d.year, d.month) then Date(d.year, d.month, d.day + 1)
    else if d.month < 12 then Date(d.year, d.month + 1, 1)
    else Date(d.year + 1, 1, 1)
  }

  /** Consecutive calendar days have consecutive day numbers. */
  lemma NextDayNumber(d: Date)
    requires Valid(d)
    ensures DayNumber(NextDay(d)) == DayNumber(d) + 1
    ensures Before(d, NextDay(d))
  {
    MonthIndexParts(d);
    if d.day < DaysInMonth(d.year, d.month) {
    } else if d.month < 12 {
      MonthTableStep(d.year, d.month);
      MonthIndexParts(NextDay(d));
    } else {
      YearStep(d.year);
      MonthIndexParts(NextDay(d));
    }
  }

  /** The month table grows by the length of each month. */
  lemma MonthTableStep(y: int, m: int)
    requires 1 <= m < 12
    ensures DaysBeforeMonth(y, m + 1) == DaysBeforeMonth(y, m) + DaysInMonth(y, m)
  {
  }
}

=== FILE: iso_date.dfy ===
/** JavaScript `Date` values at day granularity: parsing the ISO date-only forms
    (`new Date("YYYY-MM-DD")` and its shorter variants) and printing a date
    (`toISOString().split('T')[0]`). */
module IsoDate {
  import opened Wrappers
  import opened Calendar

  /** A JavaScript `Date`: either a calendar day or the invalid date (time value NaN). */
  datatype JsDate = InvalidDate | DateValue(date: Date)

  /** `date >= other` on time values: false whenever `date` is invalid (NaN). */
  predicate OnOrAfter(date: JsDate, other: Date) {
    date.DateValue? && !Before(date.date, other)
  }

  /** `setMonth(getMonth() + n)`: the invalid date stays invalid. */
  function ShiftMonths(date: JsDate, n: int): (r: JsDate)
    requires date.DateValue? ==> Valid(date.date)
    ensures r.DateValue? <==> date.DateValue?
    ensures r.DateValue? ==> r.date == AddMonths(date.date, n)
  {
    match date
    case InvalidDate => InvalidDate
    case DateValue(d) => DateValue(AddMonths(d, n))
  }

  predicate IsDigit(c: char) {
    '0' <= c <= '9'
  }

  predicate AllDigits(s: string) {
    forall i :: 0 <= i < |s| ==> IsDigit(s[i])
  }

  function DigitChar(n: int): (c: char)
    requires 0 <= n < 10
    ensures IsDigit(c)
  {
    ('0' as int + n) as char
  }

  function Pow10(w: nat): (p: nat)
    ensures p >= 1
  {
    if w == 0 then 1 else 10 * Pow10(w - 1)
  }

  /** Decimal digits of `n`, zero-padded on the left to at least `width` characters. */
  function Digits(n: nat, width: nat): (s: string)
    ensures AllDigits(s)
    decreases n + width
  {
    if n == 0 && width == 0 then []
    else Digits(n / 10, if width == 0 then 0 else width - 1) + [DigitChar(n % 10)]
  }

  /** The number a string of decimal digits denotes. */
  function DigitsValue(s: string): (n: nat)
    requires AllDigits(s)
  {
    if s == [] then 0 else DigitsValue(s[..|s| - 1]) * 10 + (s[|s| - 1] as int - '0' as int)
  }

  /** A number below 10^width prints as exactly `width` digits that read back as the number. */
  lemma {:induction false} DigitsRoundTrip(n: nat, width: nat)
    requires n < Pow10(width)
    ensures |Digits(n, width)| == width
    ensures DigitsValue(Digits(n, width)) == n
  {
    if width == 0 {
    } else {
      assert n / 10 < Pow10(width - 1) by {
        assert n / 10 * 10 <= n;
      }
      DigitsRoundTrip(n / 10, width - 1);
      var s := Digits(n, width);
      assert s[..|s| - 1] == Digits(n / 10, width - 1);
    }
  }

  /** The year part of `toISOString`: four digits for years 0..9999, otherwise
      a sign and six digits (the expanded-year form). */
  function YearText(y: int): string {
    if 0 <= y <= 9999 then Digits(y, 4)
    else if y > 9999 then "+" + Digits(y, 6)
    else "-" + Digits(-y, 6)
  }

  /** `d.toISOString().split('T')[0]`. */
  function Format(d: Date): (r: string)
    requires Valid(d)
    ensures 0 <= d.year <= 9999 ==> |r| == 10
    ensures -999999 <= d.year <= 999999 && !(0 <= d.year <= 9999) ==> |r| == 13
    ensures |r| >= 6 && r[|r| - 6] == '-' && r[|r| - 3] == '-'
    ensures AllDigits(r[|r| - 5..|r| - 3]) && AllDigits(r[|r| - 2..])
  {
    DigitsRoundTrip(d.month, 2);
    DigitsRoundTrip(d.day, 2);
    YearTextLength(d.year);
    YearText(d.year) + "-" + Digits(d.month, 2) + "-" + Digits(d.day, 2)
  }

  /** Four characters for years 0..9999, seven for the other six-digit years. */
  lemma YearTextLength(y: int)
    ensures 0 <= y <= 9999 ==> |YearText(y)| == 4
    ensures -999999 <= y <= 999999 && !(0 <= y <= 9999) ==> |YearText(y)| == 7
  {
    if 0 <= y <= 9999 {
      DigitsRoundTrip(y, 4);
    } else if 9999 < y <= 999999 {
      DigitsRoundTrip(y, 6);
    } else if -999999 <= y < 0 {
      DigitsRoundTrip(-y, 6);
    }
  }

  /** The characters of `s` in `lo..hi` are all digits. */
  predicate DigitsAt(s: string, lo: nat, hi: nat) {
    lo <= hi <= |s| && AllDigits(s[lo..hi])
  }

  /** Year, month and day fields as the parser reads them: month 1..12 and day
      1..31 are accepted, and a day past the month's end rolls into the next month. */
  function FromFields(y: int, m: int, d: int): (r: JsDate)
    ensures r.DateValue? <==> 1 <= m <= 12 && 1 <= d <= 31
    ensures r.DateValue? ==> Valid(r.date)
    ensures r.DateValue? && d <= DaysInMonth(y, m) ==> r.date == Date(y, m, d)
  {
    if 1 <= m <= 12 && 1 <= d <= 31 then
      MakeDateOfValid(Date(y, m, 1));
      DateValue(MakeDate(y * 12 + m - 1, d))
    else InvalidDate
  }

  function SignedYear(sign: char, magnitude: int): int {
    if sign == '-' then -magnitude else magnitude
  }

  /** The year field that opens an ISO date: four digits, or a sign and six
      digits (`-000000` is not a year). Gives the field's length and the year. */
  function YearField(s: string): (r: Option<(nat, int)>)
    ensures r.Some? ==> (r.value.0 == 4 || r.value.0 == 7) && r.value.0 <= |s|
  {
    if |s| >= 4 && AllDigits(s[..4]) then Some((4, DigitsValue(s[..4])))
    else if |s| >= 7 && (s[0] == '+' || s[0] == '-') && AllDigits(s[1..7])
      && !(s[0] == '-' && DigitsValue(s[1..7]) == 0)
    then Some((7, SignedYear(s[0], DigitsValue(s[1..7]))))
    else None
  }

  /** What follows the year: nothing, `-MM` or `-MM-DD`. A missing month or
      day is the first. */
  function MonthDayFields(rest: string): (r: Option<(int, int)>)
    ensures r.Some? ==> |rest| == 0 || |rest| == 3 || |rest| == 6
  {
    if rest == [] then Some((1, 1))
    else if |rest| == 3 && rest[0] == '-' && DigitsAt(rest, 1, 3) then
      Some((DigitsValue(rest[1..3]), 1))
    else if |rest| == 6 && rest[0] == '-' && DigitsAt(rest, 1, 3) && rest[3] == '-'
      && DigitsAt(rest, 4, 6)
    then Some((DigitsValue(rest[1..3]), DigitsValue(rest[4..6])))
    else None
  }

  /** `new Date(s)` for the ISO date-only forms: a year (`YYYY` or `±YYYYYY`),
      optionally followed by `-MM` and then `-DD`. Every other string is the
      invalid date. */
  function ParseDate(s: string): (r: JsDate)
    ensures r.DateValue? ==> Valid(r.date)
    ensures r.DateValue? ==> |s| in {4, 7, 10, 13}
  {
    match YearField(s)
    case None => InvalidDate
    case Some((n, y)) => DateAfterYear(y, s[n..])
  }

  /** The date that year `y` followed by `rest` denotes. */
  function DateAfterYear(y: int, rest: string): (r: JsDate)
    ensures r.DateValue? ==> Valid(r.date)
    ensures r.DateValue? ==> |rest| in {0, 3, 6}
  {
    match MonthDayFields(rest)
    case None => InvalidDate
    case Some((m, d)) => FromFields(y, m, d)
  }

  /** The fields after a year field of length `n`: nothing, `-MM` or `-MM-DD`. */
  predicate MonthDayShape(s: string, n: nat) {
    |s| == n
    || (|s| == n + 3 && s[n] == '-' && DigitsAt(s, n + 1, n + 3))
    || (|s| == n + 6 && s[n] == '-' && DigitsAt(s, n + 1, n + 3) && s[n + 3] == '-'
        && DigitsAt(s, n + 4, n + 6))
  }

  /** The shape of an ISO date-only text: `YYYY` or `±YYYYYY`, then `-MM`, then `-DD`. */
  predicate IsDateOnlyForm(s: string) {
    (|s| >= 4 && AllDigits(s[..4]) && MonthDayShape(s, 4))
    || (|s| >= 7 && (s[0] == '+' || s[0] == '-') && AllDigits(s[1..7]) && MonthDayShape(s, 7))
  }

  /** Only texts of a date-only form parse to a date. */
  lemma ParseDateOnlyForms(s: string)
    requires ParseDate(s).DateValue?
    ensures IsDateOnlyForm(s)
  {
    var n := YearField(s).value.0;
    var rest := s[n..];
    assert MonthDayFields(rest).Some?;
    if |rest| == 3 {
      assert rest[1..3] == s[n + 1..n + 3];
    } else if |rest| == 6 {
      assert rest[1..3] == s[n + 1..n + 3] && rest[4..6] == s[n + 4..n + 6];
    }
    assert MonthDayShape(s, n);
  }

  /** Printing a date and parsing the text gives the date back. */
  lemma FormatParseRoundTrip(d: Date)
    requires Valid(d) && -999999 <= d.year <= 999999
    ensures ParseDate(Format(d)) == DateValue(d)
  {
    assert FromFields(d.year, d.month, d.day) == DateValue(d);
    if 0 <= d.year <= 9999 {
      FormatParseShort(d);
    } else {
      FormatParseLong(d);
    }
  }

  lemma FormatParseShort(d: Date)
    requires Valid(d) && 0 <= d.year <= 9999
    ensures ParseDate(Format(d)) == FromFields(d.year, d.month, d.day)
  {
    DigitsRoundTrip(d.month, 2);
    DigitsRoundTrip(d.day, 2);
    DigitsRoundTrip(d.year, 4);
    var yy, mm, dd := Digits(d.year, 4), Digits(d.month, 2), Digits(d.day, 2);
    assert Format(d) == yy + "-" + mm + "-" + dd;
    ParseFullDate(yy, mm, dd);
  }

  lemma FormatParseLong(d: Date)
    requires Valid(d) && -999999 <= d.year <= 999999 && !(0 <= d.year <= 9999)
    ensures ParseDate(Format(d)) == FromFields(d.year, d.month, d.day)
  {
    DigitsRoundTrip(d.month, 2);
    DigitsRoundTrip(d.day, 2);
    var magnitude := if d.year > 9999 then d.year else -d.year;
    DigitsRoundTrip(magnitude, 6);
    var yy, mm, dd := Digits(magnitude, 6), Digits(d.month, 2), Digits(d.day, 2);
    var sign := if d.year > 9999 then '+' else '-';
    assert Format(d) == [sign] + yy + "-" + mm + "-" + dd;
    assert SignedYear(sign, DigitsValue(yy)) == d.year;
    ParseLongFullDate(sign, yy, mm, dd);
  }

  /** `YYYY` is the first of January of that year. */
  lemma ParseYearOnly(yy: string)
    requires |yy| == 4 && AllDigits(yy)
    ensures ParseDate(yy) == FromFields(DigitsValue(yy), 1, 1)
  {
    ParseAfterShortYear(yy, []);
    assert yy + [] == yy;
  }

  /** `YYYY-MM` is the first of that month. */
  lemma ParseYearMonth(yy: string, mm: string)
    requires |yy| == 4 && |mm| == 2 && AllDigits(yy) && AllDigits(mm)
    ensures ParseDate(yy + "-" + mm) == FromFields(DigitsValue(yy), DigitsValue(mm), 1)
  {
    RestMonth(DigitsValue(yy), mm);
    ParseAfterShortYear(yy, "-" + mm);
    assert yy + "-" + mm == yy + ("-" + mm);
  }

  /** `YYYY-MM-DD` reads all three fields. */
  lemma ParseFullDate(yy: string, mm: string, dd: string)
    requires |yy| == 4 && |mm| == 2 && |dd| == 2
    requires AllDigits(yy) && AllDigits(mm) && AllDigits(dd)
    ensures ParseDate(yy + "-" + mm + "-" + dd)
      == FromFields(DigitsValue(yy), DigitsValue(mm), DigitsValue(dd))
  {
    DateTextShape(yy, mm, dd);
    RestMonthDay(DigitsValue(yy), mm, dd);
    ParseAfterShortYear(yy, "-" + mm + "-" + dd);
  }

  /** `±YYYYYY` is the first of January of that year. */
  lemma ParseLongYearOnly(sign: char, yy: string)
    requires sign == '+' || sign == '-'
    requires |yy| == 6 && AllDigits(yy)
    requires sign == '-' ==> DigitsValue(yy) != 0
    ensures ParseDate([sign] + yy) == FromFields(SignedYear(sign, DigitsValue(yy)), 1, 1)
  {
    ParseAfterLongYear(sign, yy, []);
    assert [sign] + yy + [] == [sign] + yy;
  }

  /** `±YYYYYY-MM` is the first of that month. */
  lemma ParseLongYearMonth(sign: char, yy: string, mm: string)
    requires sign == '+' || sign == '-'
    requires |yy| == 6 && |mm| == 2 && AllDigits(yy) && AllDigits(mm)
    requires sign == '-' ==> DigitsValue(yy) != 0
    ensures ParseDate([sign] + yy + "-" + mm)
      == FromFields(SignedYear(sign, DigitsValue(yy)), DigitsValue(mm), 1)
  {
    RestMonth(SignedYear(sign, DigitsValue(yy)), mm);
    ParseAfterLongYear(sign, yy, "-" + mm);
    assert [sign] + yy + "-" + mm == [sign] + yy + ("-" + mm);
  }

  /** `±YYYYYY-MM-DD` reads all three fields, the sign giving the year's sign. */
  lemma ParseLongFullDate(sign: char, yy: string, mm: string, dd: string)
    requires sign == '+' || sign == '-'
    requires |yy| == 6 && |mm| == 2 && |dd| == 2
    requires AllDigits(yy) && AllDigits(mm) && AllDigits(dd)
    requires sign == '-' ==> DigitsValue(yy) != 0
    ensures ParseDate([sign] + yy + "-" + mm + "-" + dd)
      == FromFields(SignedYear(sign, DigitsValue(yy)), DigitsValue(mm), DigitsValue(dd))
  {
    var rest := "-" + mm + "-" + dd;
    DateTextShape([sign] + yy, mm, dd);
    RestMonthDay(SignedYear(sign, DigitsValue(yy)), mm, dd);
    ParseAfterLongYear(sign, yy, rest);
  }

  /** A year text followed by `-MM-DD` splits into the year and the rest. */
  lemma DateTextShape(year: string, mm: string, dd: string)
    ensures year + "-" + mm + "-" + dd == year + ("-" + mm + "-" + dd)
  {
  }

  /** After four digits, the rest of the text decides the month and day. */
  lemma ParseAfterShortYear(yy: string, rest: string)
    requires |yy| == 4 && AllDigits(yy)
    ensures ParseDate(yy + rest) == DateAfterYear(DigitsValue(yy), rest)
  {
    var s := yy + rest;
    assert s[..4] == yy && s[4..] == rest;
  }

  /** After a sign and six digits, the rest of the text decides the month and day. */
  lemma ParseAfterLongYear(sign: char, yy: string, rest: string)
    requires sign == '+' || sign == '-'
    requires |yy| == 6 && AllDigits(yy)
    requires sign == '-' ==> DigitsValue(yy) != 0
    ensures ParseDate([sign] + yy + rest) == DateAfterYear(SignedYear(sign, DigitsValue(yy)), rest)
  {
    LongYearField(sign, yy, rest);
  }

  lemma RestMonth(y: int, mm: string)
    requires |mm| == 2 && AllDigits(mm)
    ensures DateAfterYear(y, "-" + mm) == FromFields(y, DigitsValue(mm), 1)
  {
    var md := "-" + mm;
    assert md[1..3] == mm && |md| == 3 && md[0] == '-';
    assert DigitsAt(md, 1, 3);
    assert MonthDayFields(md) == Some((DigitsValue(mm), 1));
  }

  lemma RestMonthDay(y: int, mm: string, dd: string)
    requires |mm| == 2 && |dd| == 2 && AllDigits(mm) && AllDigits(dd)
    ensures DateAfterYear(y, "-" + mm + "-" + dd) == FromFields(y, DigitsValue(mm), DigitsValue(dd))
  {
    var mdd := "-" + mm + "-" + dd;
    assert mdd[1..3] == mm && mdd[4..6] == dd;
    assert |mdd| == 6 && mdd[0] == '-' && mdd[3] == '-';
    assert DigitsAt(mdd, 1, 3) && DigitsAt(mdd, 4, 6);
    assert MonthDayFields(mdd) == Some((DigitsValue(mm), DigitsValue(dd)));
  }

  /** A sign and six digits open the text as its year field. */
  lemma LongYearField(sign: char, yy: string, rest: string)
    requires sign == '+' || sign == '-'
    requires |yy| == 6 && AllDigits(yy)
    requires sign == '-' ==> DigitsValue(yy) != 0
    ensures YearField([sign] + yy + rest) == Some((7, SignedYear(sign, DigitsValue(yy))))
    ensures ([sign] + yy + rest)[7..] == rest
  {
    var s := [sign] + yy + rest;
    assert s[..4][0] == sign && s[0] == sign && s[1..7] == yy;
  }

  /** The year `-000000` is refused in every form. */
  lemma NegativeZeroYear(mm: string, dd: string)
    requires |mm| == 2 && |dd| == 2 && AllDigits(mm) && AllDigits(dd)
    ensures ParseDate("-000000") == InvalidDate
    ensures ParseDate("-000000-" + mm + "-" + dd) == InvalidDate
  {
    var z := "000000";
    assert DigitsValue(z) == 0 by {
      assert z[..5] == "00000" && z[..5][..4] == "0000" && "0000"[..3] == "000";
      assert "000"[..2] == "00" && "00"[..1] == "0" && "0"[..0] == [];
    }
    var s := "-000000-" + mm + "-" + dd;
    assert s[..4][0] == '-' && s[1..7] == z;
    assert "-000000"[..4][0] == '-' && "-000000"[1..7] == z;
  }

  /** A year alone is the first of January. */
  lemma YearOnlyExample()
    ensures ParseDate("2024") == DateValue(Date(2024, 1, 1))
  {
    ExampleDigits();
    ParseYearOnly("2024");
  }

  /** A year and month is the first of the month; month 13 is the invalid date. */
  lemma YearMonthExamples()
    ensures ParseDate("2024-03") == DateValue(Date(2024, 3, 1))
    ensures ParseDate("2024-13") == InvalidDate
  {
    ExampleDigits();
    ParseYearMonth("2024", "03");
    ParseYearMonth("2024", "13");
    assert "2024" + "-" + "03" == "2024-03";
    assert "2024" + "-" + "13" == "2024-13";
  }

  lemma ExampleDigits()
    ensures AllDigits("2024") && AllDigits("03") && AllDigits("13")
    ensures DigitsValue("2024") == 2024 && DigitsValue("03") == 3 && DigitsValue("13") == 13
  {
    assert "2024"[..3] == "202" && "202"[..2] == "20" && "20"[..1] == "2" && "2"[..0] == [];
    assert "03"[..1] == "0" && "0"[..0] == [];
    assert "13"[..1] == "1" && "1"[..0] == [];
  }

  /** Texts that are no date-only form are the invalid date. */
  lemma NotDateExamples()
    ensures ParseDate("24-03-01") == InvalidDate
    ensures ParseDate("") == InvalidDate
  {
    var s := "24-03-01";
    assert s[..4][2] == '-';
    assert s[0] == '2';
  }

  /** A day past the end of its month rolls over rather than being rejected;
      a month outside 1..12 makes the invalid date. */
  lemma FieldExamples()
    ensures FromFields(2023, 2, 30) == DateValue(Date(2023, 3, 2))
    ensures FromFields(2024, 2, 30) == DateValue(Date(2024, 3, 1))
    ensures FromFields(2024, 13, 1) == InvalidDate
    ensures FromFields(2024, 4, 32) == InvalidDate
  {
  }
}

=== FILE: js_string.dfy ===
/** The JavaScript string operations the worker table relies on:
    `trim`, `toUpperCase`, `toLowerCase` and `includes`. */
module JsString {

  /** The code points `String.prototype.trim` removes: the ECMAScript
      WhiteSpace and LineTerminator characters (ECMA-262, sections 12.2 and 12.3). */
  predicate IsTrimmable(c: char) {
    c == '\U{9}' || c == '\U{A}' || c == '\U{B}' || c == '\U{C}' || c == '\U{D}' ||
    c == ' ' || c == '\U{A0}' || c == '\U{1680}' || ('\U{2000}' <= c <= '\U{200A}') ||
    c == '\U{2028}' || c == '\U{2029}' || c == '\U{202F}' || c == '\U{205F}' ||
    c == '\U{3000}' || c == '\U{FEFF}'
  }

  /** No trimmable character at either end. */
  predicate Unpadded(s: string) {
    s == [] || (!IsTrimmable(s[0]) && !IsTrimmable(s[|s| - 1]))
  }

  predicate AllTrimmable(s: string) {
    forall i :: 0 <= i < |s| ==> IsTrimmable(s[i])
  }

  function TrimStart(s: string): (r: string)
    ensures |r| <= |s| && r == s[|s| - |r|..]
    ensures AllTrimmable(s[..|s| - |r|])
    ensures r == [] || !IsTrimmable(r[0])
  {
    if s != [] && IsTrimmable(s[0]) then TrimStart(s[1..]) else s
  }

  function TrimEnd(s: string): (r: string)
    ensures |r| <= |s| && r == s[..|r|]
    ensures AllTrimmable(s[|r|..])
    ensures r == [] || !IsTrimmable(r[|r| - 1])
  {
    if s != [] && IsTrimmable(s[|s| - 1]) then TrimEnd(s[..|s| - 1]) else s
  }

  /** `s.trim()`: the slice of `s` left after removing leading and trailing white space. */
  function Trim(s: string): (r: string)
    ensures Unpadded(r)
  {
    var t := TrimStart(s);
    var r := TrimEnd(t);
    assert r == [] || r[0] == t[0];
    r
  }

  /** Trimming removes exactly the white space around an unpadded core, whatever it is. */
  lemma {:induction false} TrimPadded(pre: string, core: string, post: string)
    requires AllTrimmable(pre) && AllTrimmable(post) && Unpadded(core)
    ensures Trim(pre + core + post) == core
  {
    if core == [] {
      assert pre + core + post == (pre + post) + [];
      TrimStartPadded(pre + post, []);
    } else {
      assert pre + core + post == pre + (core + post);
      assert (core + post)[0] == core[0];
      TrimStartPadded(pre, core + post);
      TrimEndPadded(core, post);
    }
  }

  lemma {:induction false} TrimStartPadded(pre: string, rest: string)
    requires AllTrimmable(pre) && (rest == [] || !IsTrimmable(rest[0]))
    ensures TrimStart(pre + rest) == rest
  {
    if pre == [] {
      assert pre + rest == rest;
    } else {
      assert (pre + rest)[1..] == pre[1..] + rest;
      TrimStartPadded(pre[1..], rest);
    }
  }

  lemma {:induction false} TrimEndPadded(core: string, post: string)
    requires AllTrimmable(post) && (core == [] || !IsTrimmable(core[|core| - 1]))
    ensures TrimEnd(core + post) == core
  {
    if post == [] {
      assert core + post == core;
    } else {
      assert (core + post)[..|core + post| - 1] == core + post[..|post| - 1];
      TrimEndPadded(core, post[..|post| - 1]);
    }
  }

  /** Trimming twice is trimming once. */
  lemma TrimIdempotent(s: string)
    ensures Trim(Trim(s)) == Trim(s)
  {
    var r := Trim(s);
    assert [] + r + [] == r;
    TrimPadded([], r, []);
  }

  /** Upper-case mapping of one character; only ASCII letters are mapped. */
  function UpperChar(c: char): char {
    if 'a' <= c <= 'z' then (c as int - 32) as char else c
  }

  function LowerChar(c: char): char {
    if 'A' <= c <= 'Z' then (c as int + 32) as char else c
  }

  /** `s.toUpperCase()`, restricted to ASCII letters. */
  function Upper(s: string): (r: string)
    ensures |r| == |s|
    ensures forall i :: 0 <= i < |s| ==> !('a' <= r[i] <= 'z')
    ensures forall i :: 0 <= i < |s| && !('a' <= s[i] <= 'z') ==> r[i] == s[i]
    ensures forall i :: 0 <= i < |s| && 'a' <= s[i] <= 'z' ==> r[i] as int == s[i] as int - 32
  {
    seq(|s|, i requires 0 <= i < |s| => UpperChar(s[i]))
  }

  /** `s.toLowerCase()`, restricted to ASCII letters. */
  function Lower(s: string): (r: string)
    ensures |r| == |s|
    ensures forall i :: 0 <= i < |s| ==> !('A' <= r[i] <= 'Z')
    ensures forall i :: 0 <= i < |s| && !('A' <= s[i] <= 'Z') ==> r[i] == s[i]
    ensures forall i :: 0 <= i < |s| && 'A' <= s[i] <= 'Z' ==> r[i] as int == s[i] as int + 32
  {
    seq(|s|, i requires 0 <= i < |s| => LowerChar(s[i]))
  }

  /** Upper-casing leaves white space alone, so trimming and upper-casing commute. */
  lemma UpperTrimCommute(s: string)
    ensures Upper(Trim(s)) == Trim(Upper(s))
  {
    UpperTrimStart(s);
    UpperTrimEnd(TrimStart(s));
  }

  /** Upper-casing maps white space to white space and nothing else to it. */
  lemma UpperCharTrimmable(c: char)
    ensures IsTrimmable(UpperChar(c)) <==> IsTrimmable(c)
  {
  }

  lemma {:induction false} UpperTrimStart(s: string)
    ensures Upper(TrimStart(s)) == TrimStart(Upper(s))
  {
    if s == [] {
      assert Upper(s) == [];
    } else {
      var u := Upper(s);
      assert u[0] == UpperChar(s[0]) && u[1..] == Upper(s[1..]);
      UpperCharTrimmable(s[0]);
      if IsTrimmable(s[0]) {
        assert TrimStart(s) == TrimStart(s[1..]);
        UpperTrimStart(s[1..]);
        assert TrimStart(u) == TrimStart(u[1..]);
      } else {
        assert TrimStart(s) == s;
        assert TrimStart(u) == u;
      }
    }
  }

  lemma {:induction false} UpperTrimEnd(s: string)
    ensures Upper(TrimEnd(s)) == TrimEnd(Upper(s))
  {
    if s == [] {
      assert Upper(s) == [];
    } else {
      var n := |s| - 1;
      var u := Upper(s);
      assert u[n] == UpperChar(s[n]) && u[..n] == Upper(s[..n]);
      UpperCharTrimmable(s[n]);
      if IsTrimmable(s[n]) {
        assert TrimEnd(s) == TrimEnd(s[..n]);
        UpperTrimEnd(s[..n]);
        assert TrimEnd(u) == TrimEnd(u[..n]);
      } else {
        assert TrimEnd(s) == s;
        assert TrimEnd(u) == u;
      }
    }
  }

  /** `needle` occurs in `hay` starting at position `i`. */
  predicate OccursAt(hay: string, needle: string, i: int) {
    0 <= i <= |hay| - |needle| && hay[i..i + |needle|] == needle
  }

  /** `hay.includes(needle)`: `needle` occurs in `hay` at some position. */
  function Includes(hay: string, needle: string): (r: bool)
    ensures r <==> exists i :: OccursAt(hay, needle, i)
  {
    if needle <= hay then
      assert OccursAt(hay, needle, 0);
      true
    else if hay == [] then
      assert forall i :: !OccursAt(hay, needle, i);
      false
    else
      var r := Includes(hay[1..], needle);
      assert forall i :: OccursAt(hay[1..], needle, i) <==> OccursAt(hay, needle, i + 1);
      assert !OccursAt(hay, needle, 0);
      assert (exists i :: OccursAt(hay, needle, i)) ==> r by {
        if exists i :: OccursAt(hay, needle, i) {
          var i :| OccursAt(hay, needle, i);
          assert OccursAt(hay[1..], needle, i - 1);
        }
      }
      r
  }

  /** Every string includes the empty string. */
  lemma IncludesEmpty(hay: string)
    ensures Includes(hay, [])
  {
    assert OccursAt(hay, [], 0);
  }
}

=== FILE: medical_schedule.dfy ===
/** The statutory medical-checkup calculator (`calculateNextMedical`) and the
    day-difference helper (`getDaysDiff`). "Today" is a parameter: the calendar
    day the host clock reads, in the single time zone the model counts days in. */
module MedicalSchedule {
  import opened Wrappers
  import opened Calendar
  import opened IsoDate
  import opened Workers

  /** `getDaysDiff(dateStr)`: whole days from today to the date; 0 for the empty
      string; `None` stands for NaN, the result for an unparsable date. */
  function DaysDiff(dateStr: string, today: Date): (r: Option<int>)
    requires Valid(today)
    ensures dateStr == "" ==> r == Some(0)
    ensures dateStr != "" ==> (r.None? <==> ParseDate(dateStr).InvalidDate?)
  {
    if dateStr == "" then Some(0)
    else
      match ParseDate(dateStr)
      case InvalidDate => None
      case DateValue(target) => Some(DayNumber(target) - DayNumber(today))
  }

  /** The printed form of a date is never the empty string. */
  lemma FormatNonEmpty(d: Date)
    requires Valid(d) && -999999 <= d.year <= 999999
    ensures Format(d) != ""
  {
    FormatParseRoundTrip(d);
  }

  /** Today's own date is zero days away. */
  lemma DaysDiffOfToday(today: Date)
    requires Valid(today) && -999999 <= today.year <= 999999
    ensures DaysDiff(Format(today), today) == Some(0)
  {
    FormatNonEmpty(today);
    FormatParseRoundTrip(today);
  }

  /** When a day passes, every non-empty date comes one day closer. */
  lemma DaysDiffNextDay(dateStr: string, today: Date)
    requires Valid(today) && dateStr != ""
    ensures DaysDiff(dateStr, NextDay(today)) ==
      match DaysDiff(dateStr, today)
      case None => None
      case Some(n) => Some(n - 1)
  {
    NextDayNumber(today);
  }

  /** The count is non-negative exactly when the date is not yet past, and zero exactly on the day. */
  lemma DaysDiffSign(dateStr: string, today: Date, target: Date)
    requires Valid(today) && dateStr != "" && ParseDate(dateStr) == DateValue(target)
    ensures DaysDiff(dateStr, today).Some?
    ensures DaysDiff(dateStr, today).value >= 0 <==> !Before(target, today)
    ensures DaysDiff(dateStr, today).value == 0 <==> target == today
  {
    DayNumberOrder(target, today);
    DayNumberOrder(today, target);
  }

  /** Months after entry at which an abroad entrant is due: the fixed list [6, 18, 30]. */
  const AbroadOffsets: seq<int> := [6, 18, 30]

  /** The domestic search runs `months = 12, 24, ...` while `months < 120`. */
  const DomesticLimit: int := 120

  /** The domestic candidates the loop visits: 12, 24, ..., 108. */
  function DomesticOffsets(): (offsets: seq<int>)
    ensures |offsets| == 9
    ensures forall k :: 0 <= k < 9 ==> offsets[k] == 12 * (k + 1) && offsets[k] < DomesticLimit
    ensures 12 * (|offsets| + 1) >= DomesticLimit
  {
    seq(9, k requires 0 <= k < 9 => 12 * (k + 1))
  }

  function Schedule(entryType: EntryType): seq<int> {
    if entryType == Abroad then AbroadOffsets else DomesticOffsets()
  }

  /** Index of the first offset from `from` on whose date is not before today
      (`|offsets|` when there is none). */
  function FirstDueFrom(entry: Date, offsets: seq<int>, today: Date, from: nat): (k: nat)
    requires Valid(entry) && from <= |offsets|
    ensures from <= k <= |offsets|
    ensures forall j :: from <= j < k ==> Before(AddMonths(entry, offsets[j]), today)
    ensures k < |offsets| ==> !Before(AddMonths(entry, offsets[k]), today)
    decreases |offsets| - from
  {
    if from == |offsets| then from
    else if !Before(AddMonths(entry, offsets[from]), today) then from
    else FirstDueFrom(entry, offsets, today, from + 1)
  }

  /** The first scheduled checkup on or after today, for a valid entry date. */
  function NextDue(entry: Date, entryType: EntryType, today: Date): (r: Option<Date>)
    requires Valid(entry)
    ensures r.Some? ==> Valid(r.value) && !Before(r.value, today)
  {
    var offsets := Schedule(entryType);
    var k := FirstDueFrom(entry, offsets, today, 0);
    if k < |offsets| then Some(AddMonths(entry, offsets[k])) else None
  }

  /** `calculateNextMedical(entryDate, entryType)` as a date: none for an empty
      or unparsable entry date, otherwise the first scheduled date not before today. */
  function NextCheckup(entryDate: string, entryType: EntryType, today: Date): (r: Option<Date>)
    ensures r.Some? ==> Valid(r.value) && !Before(r.value, today)
    ensures entryDate == "" ==> r == None
  {
    if entryDate == "" then None
    else
      match ParseDate(entryDate)
      case InvalidDate => None
      case DateValue(entry) => NextDue(entry, entryType, today)
  }

  /** Abroad entrants: 6, 18 and 30 months after entry, tried in that order. */
  lemma AbroadSchedule(entry: Date, today: Date)
    requires Valid(entry)
    ensures NextDue(entry, Abroad, today) ==
      if !Before(AddMonths(entry, 6), today) then Some(AddMonths(entry, 6))
      else if !Before(AddMonths(entry, 18), today) then Some(AddMonths(entry, 18))
      else if !Before(AddMonths(entry, 30), today) then Some(AddMonths(entry, 30))
      else None
  {
    var k := FirstDueFrom(entry, AbroadOffsets, today, 0);
    assert k == 0 <==> !Before(AddMonths(entry, 6), today);
    assert k == 1 ==> !Before(AddMonths(entry, AbroadOffsets[1]), today);
  }

  /** The domestic checkup `k` years after entry. */
  function DomesticDue(entry: Date, k: int): Date
    requires Valid(entry)
  {
    AddMonths(entry, 12 * k)
  }

  /** Domestic entrants: the earliest anniversary 1..9 years after entry that is not
      before today, or none once all nine have passed. */
  lemma DomesticSchedule(entry: Date, today: Date)
    requires Valid(entry)
    ensures var r := NextDue(entry, Domestic, today);
      && (r.Some? ==> exists k :: 1 <= k <= 9 && r.value == DomesticDue(entry, k))
      && (r.Some? ==> forall k :: (1 <= k <= 9 && !Before(DomesticDue(entry, k), today))
                                    ==> !Before(DomesticDue(entry, k), r.value))
      && (r.None? <==> forall k :: 1 <= k <= 9 ==> Before(DomesticDue(entry, k), today))
  {
    var offsets := DomesticOffsets();
    var i := FirstDueFrom(entry, offsets, today, 0);
    var r := NextDue(entry, Domestic, today);
    if i < 9 {
      assert r.value == DomesticDue(entry, i + 1);
      forall k | 1 <= k <= 9 && !Before(DomesticDue(entry, k), today)
        ensures !Before(DomesticDue(entry, k), r.value)
      {
        assert offsets[k - 1] == 12 * k;
        if k - 1 >= i {
          AddMonthsNotBefore(entry, 12 * (i + 1), 12 * k);
        }
      }
    } else {
      forall k | 1 <= k <= 9 ensures Before(DomesticDue(entry, k), today) {
        assert offsets[k - 1] == 12 * k;
      }
    }
    if r.None? {
      assert i == 9;
    } else {
      assert !Before(DomesticDue(entry, i + 1), today);
    }
  }

  /** The result is the entry date plus a whole number of scheduled months. */
  lemma NextCheckupOnSchedule(entryDate: string, entryType: EntryType, today: Date)
    requires NextCheckup(entryDate, entryType, today).Some?
    ensures ParseDate(entryDate).DateValue?
    ensures exists m :: (m in Schedule(entryType)
      && NextCheckup(entryDate, entryType, today).value == AddMonths(ParseDate(entryDate).date, m))
  {
    var entry := ParseDate(entryDate).date;
    var offsets := Schedule(entryType);
    var k := FirstDueFrom(entry, offsets, today, 0);
    assert offsets[k] in offsets;
  }

  /** `calculateNextMedical`: the loops over the schedule, returning the ISO text of
      the first date not before today. */
  method NextMedical(entryDate: string, entryType: EntryType, today: Date) returns (r: Option<string>)
    ensures r == match NextCheckup(entryDate, entryType, today)
                 case None => None
                 case Some(d) => Some(Format(d))
  {
    if entryDate == "" {
      return None;
    }
    var entry := ParseDate(entryDate);
    ghost var offsets := Schedule(entryType);
    ghost var expected := NextCheckup(entryDate, entryType, today);
    assert entry.InvalidDate? ==> expected == None;
    assert entry.DateValue? ==> expected == NextDue(entry.date, entryType, today);
    if entryType == Abroad {
      var schedule := [6, 18, 30];
      assert schedule == offsets;
      for i := 0 to |schedule|
        invariant entry.DateValue? ==> FirstDueFrom(entry.date, offsets, today, 0)
                                        == FirstDueFrom(entry.date, offsets, today, i)
      {
        var mDate := ShiftMonths(entry, schedule[i]);
        if OnOrAfter(mDate, today) {
          assert expected == Some(mDate.date);
          return Some(Format(mDate.date));
        }
      }
      assert expected == None;
      return None;
    } else {
      var months := 12;
      ghost var i := 0;
      while months < 120
        invariant 0 <= i <= 9 && months == 12 * (i + 1)
        invariant entry.DateValue? ==> FirstDueFrom(entry.date, offsets, today, 0)
                                        == FirstDueFrom(entry.date, offsets, today, i)
      {
        var mDate := ShiftMonths(entry, months);
        assert offsets[i] == months;
        if OnOrAfter(mDate, today) {
          assert expected == Some(mDate.date);
          return Some(Format(mDate.date));
        }
        months := months + 12;
        i := i + 1;
      }
      assert expected == None;
      return None;
    }
  }

  /** The dashboard's "days until the next checkup" is never negative. */
  lemma NextCheckupDaysAhead(entryDate: string, entryType: EntryType, today: Date)
    requires Valid(today)
    requires NextCheckup(entryDate, entryType, today).Some?
    requires -999999 <= NextCheckup(entryDate, entryType, today).value.year <= 999999
    ensures DaysDiff(Format(NextCheckup(entryDate, entryType, today).value), today).Some?
    ensures DaysDiff(Format(NextCheckup(entryDate, entryType, today).value), today).value >= 0
  {
    var d := NextCheckup(entryDate, entryType, today).value;
    FormatNonEmpty(d);
    FormatParseRoundTrip(d);
    DaysDiffSign(Format(d), today, d);
  }
}

=== FILE: session.dfy ===
/** The application session: the worker table and the signed-in user, changed
    by the login, promotion, blood-type and medical-record handlers. */
module Session {
  import opened Wrappers
  import opened JsString
  import opened Workers
  import opened Auth
  import opened AdminDirectory

  datatype LoginOutcome = AdminSession | WorkerSession(index: nat, bonusAwarded: bool) | Rejected

  /** A signed-in worker (not the administrator) is a record of the table. */
  ghost predicate WorkerInTable(ws: seq<User>, user: Option<User>) {
    user.Some? && user.value.role != Some(Admin) ==> user.value in ws
  }

  class WorkerTable {
    var workers: seq<User>
    var user: Option<User>

    ghost predicate Valid()
      reads this
    {
      WorkerInTable(workers, user)
    }

    /** Start-up with the table loaded and nobody signed in. */
    constructor (initial: seq<User>)
      ensures Valid()
      ensures workers == initial && user == None
    {
      workers := initial;
      user := None;
    }

    /** `handleLogin`. */
    method Login(idInput: string, secretInput: string, currentMonth: string) returns (outcome: LoginOutcome)
      requires Valid()
      modifies this
      ensures Valid()
      ensures Authenticate(old(workers), idInput, secretInput) == AdminAuth ==>
        outcome == AdminSession && workers == old(workers) && user == Some(AdminUser())
      ensures Authenticate(old(workers), idInput, secretInput) == AuthFailure ==>
        outcome == Rejected && workers == old(workers) && user == old(user)
      ensures Authenticate(old(workers), idInput, secretInput).WorkerAuth? ==>
        var i := Authenticate(old(workers), idInput, secretInput).index;
        && outcome == WorkerSession(i, MonthlyBonusDue(old(workers)[i], currentMonth))
        && workers == old(workers)[i := ApplyLoginBonus(old(workers)[i], currentMonth)]
        && user == Some(workers[i])
    {
      var cleanId := Trim(idInput);
      var cleanPwd := Trim(secretInput);
      if Upper(cleanId) == "ALAN" && cleanPwd == "ICH" {
        AdminIgnoresTable(workers, idInput, secretInput);
        user := Some(AdminUser());
        return AdminSession;
      }
      var foundUserIndex := FindIndex(workers, cleanId, cleanPwd);
      AuthenticateFromIndex(workers, idInput, secretInput, foundUserIndex);
      if foundUserIndex != -1 {
        var pointsAwarded := SignIn(foundUserIndex, currentMonth);
        outcome := WorkerSession(foundUserIndex, pointsAwarded);
      } else {
        outcome := Rejected;
      }
    }

    /** The found-user branch of `handleLogin`: the monthly bonus is written back to
        the table and the (possibly updated) record becomes the signed-in user. */
    method SignIn(index: nat, currentMonth: string) returns (pointsAwarded: bool)
      requires index < |workers|
      modifies this
      ensures Valid()
      ensures pointsAwarded == MonthlyBonusDue(old(workers)[index], currentMonth)
      ensures workers == old(workers)[index := ApplyLoginBonus(old(workers)[index], currentMonth)]
      ensures user == Some(workers[index])
    {
      var foundUser := workers[index];
      pointsAwarded := false;
      if foundUser.lastLoginMonth != Some(currentMonth) {
        var updatedPoints := PointsOf(foundUser) + 1;
        foundUser := foundUser.(points := Some(updatedPoints), lastLoginMonth := Some(currentMonth));
        workers := workers[index := foundUser];
        pointsAwarded := true;
      } else {
        assert workers == workers[index := foundUser];
      }
      assert workers[index] == foundUser;
      user := Some(foundUser);
    }

    /** `handleLogout`. */
    method Logout()
      requires Valid()
      modifies this
      ensures Valid()
      ensures workers == old(workers) && user == None
    {
      user := None;
    }

    /** `handleConfirmPromotion`: `awarded` is whether the bonus toast is shown. */
    method ConfirmPromotion(id: string) returns (awarded: bool)
      requires Valid()
      modifies this
      ensures Valid()
      ensures awarded <==> old(user).Some? && id !in ReadList(old(user).value)
      ensures awarded ==>
        && user == Some(ConfirmRead(old(user).value, id))
        && workers == ReplaceByPassport(old(workers), old(user).value.passportNumber, user.value)
      ensures !awarded ==> workers == old(workers) && user == old(user)
      ensures awarded && UniquePassports(old(workers)) && old(user).value.role != Some(Admin) ==>
        TotalPoints(workers) == TotalPoints(old(workers)) + 1
    {
      if user.None? {
        return false;
      }
      var u := user.value;
      var currentRead := ReadList(u);
      if id in currentRead {
        return false;
      }
      var updatedPoints := PointsOf(u) + 1;
      var updatedUser := u.(readPromotions := Some(currentRead + [id]), points := Some(updatedPoints));
      assert updatedUser == ConfirmRead(u, id);
      var updatedWorkers := ReplaceByPassport(workers, u.passportNumber, updatedUser);
      if u.role != Some(Admin) {
        ReplaceKeepsMember(workers, u, updatedUser);
        if UniquePassports(workers) {
          ConfirmationTotal(workers, u, id);
        }
      }
      workers := updatedWorkers;
      user := Some(updatedUser);
      awarded := true;
    }

    /** `handleUpdateBloodType`. */
    method UpdateBloodType(newType: string)
      requires Valid()
      modifies this
      ensures Valid()
      ensures old(user).None? ==> workers == old(workers) && user == None
      ensures old(user).Some? ==>
        && user == Some(WithBloodType(old(user).value, newType))
        && workers == ReplaceByPassport(old(workers), old(user).value.passportNumber, user.value)
      ensures old(user).Some? && old(user).value.role != Some(Admin) && UniquePassports(old(workers)) ==>
        TotalPoints(workers) == TotalPoints(old(workers))
    {
      if user.None? {
        return;
      }
      var u := user.value;
      var updatedUser := u.(bloodType := newType);
      if u.role != Some(Admin) {
        ReplaceKeepsMember(workers, u, updatedUser);
        if UniquePassports(workers) {
          EditTotal(workers, u, updatedUser);
        }
      }
      workers := ReplaceByPassport(workers, u.passportNumber, updatedUser);
      user := Some(updatedUser);
    }

    /** `handleAddMedicalRecord`; the record id (a timestamp in the source) and the
        form's date, type and description are parameters. */
    method AddMedicalRecord(recordId: string, date: string, recordType: RecordType, description: string)
      requires Valid()
      modifies this
      ensures Valid()
      ensures old(user).None? ==> workers == old(workers) && user == None
      ensures old(user).Some? ==>
        && user == Some(AddRecord(old(user).value, MedicalRecord(recordId, date, recordType, description, None)))
        && workers == ReplaceByPassport(old(workers), old(user).value.passportNumber, user.value)
      ensures old(user).Some? && old(user).value.role != Some(Admin) && UniquePassports(old(workers)) ==>
        TotalPoints(workers) == TotalPoints(old(workers))
    {
      if user.None? {
        return;
      }
      var u := user.value;
      var record := MedicalRecord(recordId, date, recordType, description, None);
      var updatedUser := u.(medicalHistory := Some([record] + History(u)));
      if u.role != Some(Admin) {
        ReplaceKeepsMember(workers, u, updatedUser);
        if UniquePassports(workers) {
          EditTotal(workers, u, updatedUser);
        }
      }
      workers := ReplaceByPassport(workers, u.passportNumber, updatedUser);
      user := Some(updatedUser);
    }
  }

  /** The login bonus touches neither passport numbers nor birth dates, so the first match stays put. */
  lemma LoginKeepsFirstMatch(ws: seq<User>, key: string, secret: string, month: string, i: nat)
    requires i < |ws|
    ensures FirstMatchFrom(ws[i := ApplyLoginBonus(ws[i], month)], key, secret, 0)
      == FirstMatchFrom(ws, key, secret, 0)
  {
    var after := ws[i := ApplyLoginBonus(ws[i], month)];
    assert forall j :: 0 <= j < |ws| ==>
      ws[j].passportNumber == after[j].passportNumber && ws[j].birthDate == after[j].birthDate;
    FirstMatchSameCredentials(ws, after, key, secret, 0);
  }

  /** Applying the bonus twice for the same month is the same as applying it once. */
  lemma RepeatBonusUnchanged(ws: seq<User>, month: string, i: nat)
    requires i < |ws|
    ensures var after := ws[i := ApplyLoginBonus(ws[i], month)];
      !MonthlyBonusDue(after[i], month) && after[i := ApplyLoginBonus(after[i], month)] == after
  {
    LoginBonusOncePerMonth(ws[i], month);
  }

  /** A second login with the same credentials in the same month finds the same
      record, awards nothing and leaves the table as the first login left it. */
  lemma SecondLoginSameMonth(ws: seq<User>, idInput: string, secretInput: string, month: string, i: nat)
    requires Authenticate(ws, idInput, secretInput) == WorkerAuth(i)
    ensures var after := ws[i := ApplyLoginBonus(ws[i], month)];
      && Authenticate(after, idInput, secretInput) == WorkerAuth(i)
      && !MonthlyBonusDue(after[i], month)
      && after[i := ApplyLoginBonus(after[i], month)] == after
  {
    LoginKeepsFirstMatch(ws, Upper(Trim(idInput)), Trim(secretInput), month, i);
    AuthenticateByFirstMatch(ws, ws[i := ApplyLoginBonus(ws[i], month)], idInput, secretInput);
    RepeatBonusUnchanged(ws, month, i);
  }

  /** A login bonus raises the directory's points total by exactly one; a repeat login by nothing. */
  lemma LoginBonusTotal(ws: seq<User>, i: nat, month: string)
    requires i < |ws|
    ensures TotalPoints(ws[i := ApplyLoginBonus(ws[i], month)])
      == TotalPoints(ws) + (if MonthlyBonusDue(ws[i], month) then 1 else 0)
  {
    TotalPointsUpdate(ws, i, ApplyLoginBonus(ws[i], month));
  }

  /** With unique passport numbers, a signed-in worker's promotion confirmation
      changes only that worker's record and raises the points total by exactly one. */
  lemma ConfirmationTotal(ws: seq<User>, u: User, id: string)
    requires UniquePassports(ws) && u in ws && id !in ReadList(u)
    ensures var after := ReplaceByPassport(ws, u.passportNumber, ConfirmRead(u, id));
      && (forall j :: 0 <= j < |ws| ==> PointsOf(ws[j]) <= PointsOf(after[j]))
      && TotalPoints(after) == TotalPoints(ws) + 1
  {
    var j :| 0 <= j < |ws| && ws[j] == u;
    var confirmed := ConfirmRead(u, id);
    var after := ReplaceByPassport(ws, u.passportNumber, confirmed);
    ReplaceUniqueIsUpdate(ws, j, confirmed);
    assert after == ws[j := confirmed];
    TotalPointsUpdate(ws, j, confirmed);
    forall k | 0 <= k < |ws|
      ensures PointsOf(ws[k]) <= PointsOf(after[k])
    {
      if k == j {
        assert after[k] == confirmed;
      } else {
        assert after[k] == ws[k];
      }
    }
  }

  /** Edits that award nothing (blood type, medical record) leave the points total alone. */
  lemma EditTotal(ws: seq<User>, u: User, updated: User)
    requires UniquePassports(ws) && u in ws
    requires updated.passportNumber == u.passportNumber && PointsOf(updated) == PointsOf(u)
    ensures TotalPoints(ReplaceByPassport(ws, u.passportNumber, updated)) == TotalPoints(ws)
  {
    var j :| 0 <= j < |ws| && ws[j] == u;
    ReplaceUniqueIsUpdate(ws, j, updated);
    TotalPointsUpdate(ws, j, updated);
  }
}

=== FILE: workers.dfy ===
/** Worker records (the `User` and `MedicalRecord` shapes) and the record-level
    updates the handlers apply: the monthly login bonus, the promotion read
    confirmation, the blood-type edit and the medical-record append. */
module Workers {
  import opened Wrappers

  datatype RecordType = Checkup | Treatment

  datatype MedicalRecord = MedicalRecord(
    id: string,
    date: string,
    recordType: RecordType,
    description: string,
    descriptionZh: Option<string>)

  datatype EntryType = Abroad | Domestic

  datatype Role = Admin | Worker

  datatype EmergencyContact = EmergencyContact(name: string, relationship: string, phone: string)

  /** A worker (or the synthetic administrator); optional fields are `Option`s. */
  datatype User = User(
    passportNumber: string,
    birthDate: string,        // the login secret, YYYYMMDD
    name: string,
    employer: string,
    workerId: string,
    bloodType: string,
    allergies: seq<string>,
    passportExpiry: string,
    medicalCheckupDate: string,
    entryDate: string,
    entryType: EntryType,
    dormitory: Option<string>,
    roomNumber: Option<string>,
    medicalHistory: Option<seq<MedicalRecord>>,
    readPromotions: Option<seq<string>>,
    points: Option<int>,
    lastLoginMonth: Option<string>,
    emergencyContact: EmergencyContact,
    role: Option<Role>)

  /** `u.points || 0`. */
  function PointsOf(u: User): int {
    match u.points
    case Some(p) => p
    case None => 0
  }

  /** `u.readPromotions || []`. */
  function ReadList(u: User): seq<string> {
    match u.readPromotions
    case Some(ids) => ids
    case None => []
  }

  /** `u.medicalHistory || []`, newest record first. */
  function History(u: User): seq<MedicalRecord> {
    match u.medicalHistory
    case Some(records) => records
    case None => []
  }

  /** The worker has not yet had the bonus for `month` (an absent month counts as different). */
  predicate MonthlyBonusDue(u: User, month: string) {
    u.lastLoginMonth != Some(month)
  }

  /** The record after a successful login in `month`: one point the first time in a month. */
  function ApplyLoginBonus(u: User, month: string): (r: User)
    ensures r.lastLoginMonth == Some(month)
    ensures PointsOf(r) == PointsOf(u) + (if MonthlyBonusDue(u, month) then 1 else 0)
    ensures !MonthlyBonusDue(u, month) ==> r == u
    ensures r.(points := u.points, lastLoginMonth := u.lastLoginMonth) == u
  {
    if MonthlyBonusDue(u, month) then
      u.(points := Some(PointsOf(u) + 1), lastLoginMonth := Some(month))
    else u
  }

  /** A second login in the same month awards nothing and changes nothing. */
  lemma LoginBonusOncePerMonth(u: User, month: string)
    ensures !MonthlyBonusDue(ApplyLoginBonus(u, month), month)
    ensures ApplyLoginBonus(ApplyLoginBonus(u, month), month) == ApplyLoginBonus(u, month)
  {
  }

  /** The record after confirming promotion `id`: marked read, one point, once. */
  function ConfirmRead(u: User, id: string): (r: User)
    ensures id in ReadList(r)
    ensures id in ReadList(u) ==> r == u
    ensures id !in ReadList(u) ==> ReadList(r) == ReadList(u) + [id] && PointsOf(r) == PointsOf(u) + 1
    ensures r.(readPromotions := u.readPromotions, points := u.points) == u
  {
    if id in ReadList(u) then u
    else u.(readPromotions := Some(ReadList(u) + [id]), points := Some(PointsOf(u) + 1))
  }

  /** Confirming the same promotion twice is confirming it once. */
  lemma ConfirmReadIdempotent(u: User, id: string)
    ensures ConfirmRead(ConfirmRead(u, id), id) == ConfirmRead(u, id)
  {
  }

  /** Read promotions only grow and points never fall. */
  lemma ConfirmReadMonotone(u: User, id: string)
    ensures forall p :: p in ReadList(u) ==> p in ReadList(ConfirmRead(u, id))
    ensures PointsOf(u) <= PointsOf(ConfirmRead(u, id))
  {
  }

  /** The record with blood type `t`; nothing else changes. */
  function WithBloodType(u: User, t: string): (r: User)
    ensures r.bloodType == t
    ensures r.(bloodType := u.bloodType) == u
  {
    u.(bloodType := t)
  }

  /** The record with `rec` put in front of its medical history; nothing else changes. */
  function AddRecord(u: User, rec: MedicalRecord): (r: User)
    ensures History(r) == [rec] + History(u)
    ensures r.(medicalHistory := u.medicalHistory) == u
  {
    u.(medicalHistory := Some([rec] + History(u)))
  }

  /** The new record comes first, the older ones follow in their order. */
  lemma AddRecordNewestFirst(u: User, rec: MedicalRecord)
    ensures |History(AddRecord(u, rec))| == |History(u)| + 1
    ensures History(AddRecord(u, rec))[0] == rec
    ensures History(AddRecord(u, rec))[1..] == History(u)
    ensures PointsOf(AddRecord(u, rec)) == PointsOf(u)
  {
    assert ([rec] + History(u))[1..] == History(u);
  }

  /** `workers.map(w => w.passportNumber === passport ? updated : w)`. */
  function ReplaceByPassport(ws: seq<User>, passport: string, updated: User): (r: seq<User>)
    ensures |r| == |ws|
    ensures forall i :: 0 <= i < |ws| && ws[i].passportNumber == passport ==> r[i] == updated
    ensures forall i :: 0 <= i < |ws| && ws[i].passportNumber != passport ==> r[i] == ws[i]
  {
    if ws == [] then []
    else
      [if ws[0].passportNumber == passport then updated else ws[0]]
        + ReplaceByPassport(ws[1..], passport, updated)
  }

  /** No two records share a passport number. */
  predicate UniquePassports(ws: seq<User>) {
    forall i, j :: 0 <= i < j < |ws| ==> ws[i].passportNumber != ws[j].passportNumber
  }

  /** With unique passports the map replaces exactly the one record of that passport. */
  lemma ReplaceUniqueIsUpdate(ws: seq<User>, j: nat, updated: User)
    requires UniquePassports(ws) && j < |ws|
    ensures ReplaceByPassport(ws, ws[j].passportNumber, updated) == ws[j := updated]
  {
    var r := ReplaceByPassport(ws, ws[j].passportNumber, updated);
    forall i | 0 <= i < |ws|
      ensures r[i] == ws[j := updated][i]
    {
      if i < j {
        assert ws[i].passportNumber != ws[j].passportNumber;
      } else if j < i {
        assert ws[j].passportNumber != ws[i].passportNumber;
      }
    }
  }

  /** A record that is in the table is replaced by the updated one, which is then in the table. */
  lemma ReplaceKeepsMember(ws: seq<User>, u: User, updated: User)
    requires u in ws
    ensures updated in ReplaceByPassport(ws, u.passportNumber, updated)
  {
    var i :| 0 <= i < |ws| && ws[i] == u;
    assert ReplaceByPassport(ws, u.passportNumber, updated)[i] == updated;
  }

  /** The map leaves every passport number where it was when the new record keeps its passport. */
  lemma ReplaceKeepsPassports(ws: seq<User>, passport: string, updated: User)
    requires updated.passportNumber == passport
    ensures var r := ReplaceByPassport(ws, passport, updated);
      forall i :: 0 <= i < |ws| ==> r[i].passportNumber == ws[i].passportNumber
  {
  }
}

=== FILE: wrappers.dfy ===
/** Optional values: JavaScript's `undefined` / `null` for a field or a result. */
module Wrappers {
  datatype Option<+T> = None | Some(value: T)
}
